=== FILE: README.md ===
# Hotspot3D — a Dafny model of the FORGE 3D hotspot node

A hotspot is an interactive mesh placed in a panoramic scene. It owns a transform,
an animation, a material and an optional sound, and it takes part in two render
passes: the colour pass, which draws its colour or texture, and the picking pass,
which draws a flat colour unique to its mesh so that a hit can be traced back to it.

This project models the hotspot node of `src/hotspots/Hotspot3D.js` as immutable
state and pure transitions:

- `js.dfy` (`Js`): the configuration values the node reads. These are JSON values,
  with `undefined` as `None`. Also here: the `typeof` tests, `x || false`, and the
  `TypeError` thrown when a property of `null` is read.
- `spatial.dfy` (`Spatial`): the spatial update. Position is copied across. In
  fixed mode the rotation is the degree-to-radian conversion with pitch negated,
  in order Y-X-Z. Facing-center mode adds the same offsets to a spherical
  baseline. Each live scale component is clamped to [0.000001, 100000].
- `geometry.dfy` (`Geometry`): which primitive factory the geometry descriptor
  selects, and with which argument.
- `state.dfy` (`HotspotState`): the node record, its sub-objects and its mesh. It
  also defines the `Collaborators` the node consults without owning, and the
  `Effect`s it causes: calls into collaborators and uniform writes.
- `lifecycle.dfy` (`HotspotLifecycle`): boot, configuration parsing, the
  material-ready handler and hotspot build, the spatial update on animation
  progress, the per-frame update, and destroy.
- `render.dfy` (`RenderDispatch`): the before-render callback, which branches on
  the name of the material bound for the pass.
- `machine.dfy` (`HotspotMachine`): the node as a state machine over events,
  with the invariant `Consistent`. When the mesh's render callback is armed, the
  node is ready and holds the allocator's colour for its mesh. That invariant is
  proved along every run.

Collaborators whose code is not part of this model are parameters. They are
fields of `Collaborators` holding function values:
- the degree-to-radian conversion;
- the spherical baseline `(-phi + pi/2, theta + pi)`;
- the picking-colour allocator;
- the preset merge, and the TRANSPARENT and DEBUG presets;
- the transform loader;
- the animation's auto-play flag;
- the material's state before loading;
- whether the view is rectilinear.

Four behaviours of the code are easy to misread; the model follows the code:
- Destroy is not idempotent. `destroy` reads `_material.onReady` without a null
  check (line 376) and then releases the material, so a second call throws
  (`DestroyTwiceFails`).
- The material-ready handler has no guard against a repeated notification. A
  second notification rebuilds the same node. It also dispatches the ready signal
  again and plays an auto-playing animation again (`RepeatedReadyReplaysEffects`).
- Destroy clears only the node's own references to the bound callbacks. The
  mesh's `onBeforeRender`/`onAfterRender` slots keep them (`Released` leaves the
  mesh untouched).
- `facingCenter` is stored as `config.facingCenter || false`, but the mode test
  is `=== true`. So only the boolean `true` selects facing-center mode, and any
  other truthy value gives fixed mode (`ParseConfig`).

## Model

| member | source | states |
|---|---|---|
| `Js.Get` | src/hotspots/Hotspot3D.js:270 | A read of a plain data key (such as `type` or `options`) throws exactly on `null`; it yields a value exactly when the object holds the key, and `undefined` otherwise |
| `Js.OrFalse` | src/hotspots/Hotspot3D.js:140 | `x || false` keeps a truthy value and gives `false` for absent or falsy values |
| `Spatial.Clamp` | src/hotspots/Hotspot3D.js:348-350 | The clamp stays in [lo, hi], leaves in-range values alone, and maps values below or above to the nearer bound |
| `Spatial.ClampScale` | src/hotspots/Hotspot3D.js:348-350 | A live scale component lies in [0.000001, 100000], and equals its input exactly when the input is already in range |
| `Spatial.ClampScaleMonotonic` | src/hotspots/Hotspot3D.js:348-350 | A larger unclamped scale never gives a smaller clamped one |
| `Spatial.SpatialUpdate` | src/hotspots/Hotspot3D.js:320-351 | The mesh position equals the transform position, and the order is Y-X-Z. Fixed mode gives (-rad(pitch), rad(yaw), rad(roll)); facing mode adds those offsets to the spherical baseline. Each scale component is in range: kept iff it already was, otherwise set to the nearer bound |
| `Spatial.FixedRotationIgnoresPosition` | src/hotspots/Hotspot3D.js:339-344 | In fixed mode the orientation does not depend on the position |
| `Spatial.InRangeScaleKept` | src/hotspots/Hotspot3D.js:348-350 | A transform scale already in range reaches the mesh unchanged |
| `Geometry.PrimitiveNamedInvertsTypeName` | src/hotspots/Hotspot3D.js:274-287 | A type string selects a primitive exactly when it is that primitive's enumeration name |
| `Geometry.SelectGeometry` | src/hotspots/Hotspot3D.js:270-296 | A `type` of BOX, SPHERE, CYLINDER or PLANE calls that factory with the descriptor's options. An absent descriptor, a non-string `type` or an unknown string calls `PLANE()`. Only a `null` descriptor throws |
| `Geometry.NonPlaneOnlyWhenNamed` | src/hotspots/Hotspot3D.js:270-296 | A non-plane primitive is built only when the descriptor's `type` string names it |
| `HotspotLifecycle.Boot` | src/hotspots/Hotspot3D.js:105-120 | Boot creates transform, animation and material and binds both callbacks. The material starts from its fresh state. With a config it parses: the transform is the loaded one and the calls are exactly `ParseEffects`; without one it makes no call. It never sets `ready` or the picking colour, arms no mesh callback, and plays nothing |
| `HotspotLifecycle.MaterialConfigFor` | src/hotspots/Hotspot3D.js:156-170 | The material document is the given one or, when absent, the TRANSPARENT preset. With debug on, it is that choice merged with the DEBUG preset |
| `HotspotLifecycle.ParseEffects` | src/hotspots/Hotspot3D.js:128-189 | Parsing registers first. It loads a transform document iff one is present, loads an animation document and subscribes to its progress iff one is present, loads a sound (with the transform document) iff a sound document is present, and creates events iff `typeof events` is `"object"` (which includes `null`). Besides these and the material subscription and load it makes no call; in particular it never plays the animation or dispatches ready |
| `HotspotLifecycle.LoadedAnimation` | src/hotspots/Hotspot3D.js:147-151 | An animation document present is loaded and adds the progress subscription; without one the animation is unchanged |
| `HotspotLifecycle.ParseConfig` | src/hotspots/Hotspot3D.js:128-189 | Parsing copies the identity and names the mesh `mesh-<uid>`. `facingCenter` defaults to `false`, and facing mode holds iff the config value is `true`. The transform and the animation are the loaded ones, the animation holding the configured document. It subscribes the ready handler and loads the chosen material document. A sound document replaces the sound, loaded with the transform document; a string `fx` replaces the effect identifier; otherwise both stay. Readiness, picking colour, geometry and mesh callbacks are untouched, and the calls made are `ParseEffects` |
| `HotspotLifecycle.ParseSubscribesBeforeLoading` | src/hotspots/Hotspot3D.js:153-172 | In the calls parsing makes, the material load happens, and every material load comes right after the ready-handler subscription |
| `HotspotLifecycle.LoadFollowsSubscription` | src/hotspots/Hotspot3D.js:153-172 | When neither the calls before nor after the subscribe-then-load pair load a material, every material load comes right after the subscription |
| `HotspotLifecycle.UpdatePosition` | src/hotspots/Hotspot3D.js:320-351 | With a transform, only the mesh pose changes: it becomes the spatial update of the transform in the node's mode, with in-range scale. Without a transform it throws |
| `HotspotLifecycle.GeometryFor` | src/hotspots/Hotspot3D.js:270 | Geometry selection succeeds iff a config exists and its descriptor is not `null` |
| `HotspotLifecycle.CreateHotspot3D` | src/hotspots/Hotspot3D.js:268-313 | The build attaches the selected geometry with the raw transform scale baked in, the material, the config payload and the rectilinear culling flag. It places the mesh and marks the node ready; nothing else in the node changes. Its only call is the ready dispatch, made iff a ready signal exists |
| `HotspotLifecycle.MaterialReadyHandler` | src/hotspots/Hotspot3D.js:246-261 | On a booted node with a readable descriptor, the node becomes ready. Its mesh gets the selected geometry scaled by the raw transform scale, the material's renderer material, the spatial-update pose, the config payload and the culling flag. It gets the allocator's colour for its mesh and both bound callbacks on the mesh; nothing else changes. Its calls are the ready dispatch iff a ready signal exists, then the animation play iff auto-play |
| `HotspotLifecycle.RepeatedReadyReplaysEffects` | src/hotspots/Hotspot3D.js:246-261 | A second ready notification yields the same node and repeats the same calls; nothing guards the handler |
| `HotspotLifecycle.DeliverMaterialReady` | src/hotspots/Hotspot3D.js:153 | While subscribed, the ready signal runs the handler on the node holding the resolved material state. A node without a material, or without the subscription, is not made ready |
| `HotspotLifecycle.AnimationProgress` | src/hotspots/Hotspot3D.js:147-151 | Progress writes the shared transform. When the spatial update is subscribed the result is exactly the spatial update of the written node; otherwise only the transform changes |
| `HotspotLifecycle.Update` | src/hotspots/Hotspot3D.js:357-368 | The per-frame update calls the material's update iff it exists, then the sound's iff it exists, and nothing else |
| `HotspotLifecycle.Destroy` | src/hotspots/Hotspot3D.js:374-406 | Destroy throws iff there is no material. Otherwise its calls are exactly: unsubscribe the ready handler, destroy the transform, the animation, the material and the sound in that order (skipping absent ones), then destroy the base node. Sub-objects and bound callbacks end up null |
| `HotspotLifecycle.DestroyTwiceFails` | src/hotspots/Hotspot3D.js:376-397 | A second destroy throws |
| `HotspotLifecycle.LateReadyAfterDestroyIsInert` | src/hotspots/Hotspot3D.js:376 | A ready signal arriving after destroy changes nothing and causes nothing |
| `RenderDispatch.BeforeRender` | src/hotspots/Hotspot3D.js:196-231 | Shared uniforms are pushed first. The HotspotMaterial pass writes `tColor` for GRAPHICS and `tTexture` otherwise. The PickingMaterial pass, once a program exists, uses it and writes the picking colour to the program and to the material's `tColor`. Any other name writes nothing more |
| `RenderDispatch.PassWritesFollowPass` | src/hotspots/Hotspot3D.js:206-230 | A texture upload happens only on the colour pass of a non-GRAPHICS material. A program is touched only on the picking pass with a linked program, and always with the node's picking colour |
| `HotspotMachine.ConstructedNodeConsistent` | src/hotspots/Hotspot3D.js:105-189 | After construction and boot the node is consistent and not ready, with no picking colour, no armed mesh callback, and neither geometry nor material on the mesh |
| `HotspotMachine.StepPreservesConsistent` | src/hotspots/Hotspot3D.js:246-261 | Every event keeps the node consistent and keeps its mesh identity. Consistent means: both mesh callbacks are armed only on a ready node, the before-render one with the allocator's colour; the mesh has geometry exactly when the node is ready; and a material only on a ready node |
| `HotspotMachine.RunPreservesConsistent` | src/hotspots/Hotspot3D.js:246-261 | Consistency holds along every run that does not throw |
| `HotspotMachine.ReadyOnlyOnMaterialReady` | src/hotspots/Hotspot3D.js:307 | Only a material-ready event turns a node ready |
| `HotspotMachine.RunReadyNeedsMaterialReady` | src/hotspots/Hotspot3D.js:246-313 | A run that makes a node ready contains a material-ready event |
| `HotspotMachine.DrawBeforeReadyWritesNothing` | src/hotspots/Hotspot3D.js:254-255 | Before readiness a draw writes no uniform, because the mesh still has the no-op callback |
| `HotspotMachine.StepPickingWritesAllocatorColor` | src/hotspots/Hotspot3D.js:223-228 | Every picking colour written into the program is the allocator's colour for this mesh, never null |
| `HotspotMachine.RunPickingWritesAllocatorColor` | src/hotspots/Hotspot3D.js:223-228 | The same holds along every run |
| `HotspotMachine.PlacedHotspotExample` | src/hotspots/Hotspot3D.js:268-351 | A hotspot with no material, loaded at (0,0,-5) with zero rotation and unit scale, asks for the TRANSPARENT preset. Once ready it sits at (0,0,-5), unrotated in Y-X-Z order, at unit scale, on the default plane |

## Left out

- Facing-center orientation: `THREE.Spherical` and the pi offsets (lines 326-330) are floating-point trigonometry in a library that is not part of this model. The baseline is a collaborator function; only the degree offsets added to it are modelled.
- Numbers are exact reals. NaN, infinities, negative zero and rounding are not modelled.
- WebGL calls (`getContext`, `useProgram`, `getUniforms().map.tColor.setValue`) and `view.updateUniforms` are recorded as abstract `Effect`s, not performed.
- FORGE collaborators are not part of this model: the `Object3D` base (`_boot`, `_register`, `destroy`, the ready signal), `_createEvents`, `HotspotTransform`, `HotspotAnimation`, `HotspotMaterial`, `HotspotSound`, the `HotspotGeometry` factories, `PickingDrawPass.colorFrom3DObject` and `Utils.extendMultipleObjects`. Calls into them are `Effect`s or `Collaborators` fields.
- The geometry-type enumeration is not part of this model. Its values are taken as "box", "sphere", "cylinder" and "plane".
- `FORGE.Math.clamp` is not part of this model. It is taken as `Math.min(max, Math.max(min, value))`.
- The frustum-culling test `instanceof ViewRectilinear` is a boolean collaborator field. The geometry's baked scale (line 298) is recorded as the raw transform scale, not applied to vertices.
- `_onAfterRender` is empty and `this.log(group)` only logs, so neither is modelled beyond the bound callback identity.
- The `type`, `name` and `animation` accessors are plain field reads of the node record.
- Identity fields are typed (`uid` is a string), so the mesh name is `"mesh-" + uid` without JavaScript's conversion of other values to strings.
- A `null` and an `undefined` configuration are both `None`, because boot treats them alike.
- Uniqueness of picking colours across live nodes is a property of the allocator, which is not part of this model.
- RenderDispatch.BeforeRender: on the colour pass of a node without a material, the source pushes the shared uniforms (line 203) before the material read throws (line 208). The model returns only the error, without that push, because a `Result` error carries no effects.
- HotspotLifecycle.MaterialReadyHandler: when it throws, the model returns only the error. It does not model the fields JavaScript had already written before the exception.
- HotspotLifecycle.AnimationProgress: a node without an animation or without a transform is treated as receiving no progress. In the source, only destroy produces such a node, and the animation is destroyed there too.

=== FILE: geometry.dfy ===
/**
  Geometry selection: which primitive factory a hotspot's geometry descriptor
  `{type, options}` calls. The factories themselves are collaborators; the model
  records the factory chosen and the argument it receives.
*/
module Geometry {
  import opened Js

  datatype Primitive = Box | Sphere | Cylinder | Plane

  /** The type strings of the geometry-type enumeration, matched with `===`. */
  const BoxType: string := "box"
  const SphereType: string := "sphere"
  const CylinderType: string := "cylinder"
  const PlaneType: string := "plane"

  /** A factory call; `options == None` is a call without argument (default options). */
  datatype GeometryCall = GeometryCall(primitive: Primitive, options: Option<Json>)

  /** The call every fallback path makes: `PLANE()`. */
  const DefaultPlane: GeometryCall := GeometryCall(Plane, None)

  /** The primitive a type string names, if it is one of the four known ones. */
  function PrimitiveNamed(t: string): Option<Primitive> {
    if t == BoxType then Some(Box)
    else if t == SphereType then Some(Sphere)
    else if t == CylinderType then Some(Cylinder)
    else if t == PlaneType then Some(Plane)
    else None
  }

  /** The name under which the enumeration lists a primitive. */
  function TypeName(p: Primitive): string {
    match p
    case Box => BoxType
    case Sphere => SphereType
    case Cylinder => CylinderType
    case Plane => PlaneType
  }

  lemma PrimitiveNamedInvertsTypeName(p: Primitive, t: string)
    ensures PrimitiveNamed(t) == Some(p) <==> t == TypeName(p)
  {
  }

  /** The descriptor is an object whose `type` property is a string. */
  predicate HasStringType(geometry: Option<Json>) {
    geometry.Some? && geometry.value.JObj? && "type" in geometry.value.fields
    && geometry.value.fields["type"].JStr?
  }

  /** The descriptor's `options` property, `None` when absent. */
  function OptionsOf(g: Json): Option<Json>
    requires g.JObj?
  {
    if "options" in g.fields then Some(g.fields["options"]) else None
  }

  /**
    The factory call for descriptor `geometry` (None = absent): the named primitive
    with the descriptor's options when `type` is one of the four known strings, the
    default plane otherwise. Reading `type` on a `null` descriptor throws.
  */
  function SelectGeometry(geometry: Option<Json>): (r: Result<GeometryCall>)
    ensures r.Err? <==> geometry == Some(JNull)
    ensures HasStringType(geometry) && PrimitiveNamed(geometry.value.fields["type"].s).Some? ==>
      r == Ok(GeometryCall(PrimitiveNamed(geometry.value.fields["type"].s).value,
                           OptionsOf(geometry.value)))
    ensures HasStringType(geometry) && PrimitiveNamed(geometry.value.fields["type"].s).None? ==>
      r == Ok(DefaultPlane)
    ensures geometry != Some(JNull) && !HasStringType(geometry) ==> r == Ok(DefaultPlane)
  {
    match geometry
    case None => Ok(DefaultPlane)
    case Some(g) =>
      match Get(g, "type")
      case Err(e) => Err(e)
      case Ok(t) =>
        if t.Some? && t.value.JStr? then
          match PrimitiveNamed(t.value.s)
          case Some(p) => Ok(GeometryCall(p, OptionsOf(g)))
          case None => Ok(DefaultPlane)
        else Ok(DefaultPlane)
  }

  /** The selection never fails on a descriptor that is not `null`, and it builds a
      non-plane primitive only when the descriptor names it. */
  lemma NonPlaneOnlyWhenNamed(geometry: Option<Json>)
    requires SelectGeometry(geometry).Ok?
    requires SelectGeometry(geometry).value.primitive != Plane
    ensures HasStringType(geometry)
    ensures geometry.value.fields["type"].s == TypeName(SelectGeometry(geometry).value.primitive)
  {
  }
}

=== FILE: js.dfy ===
/**
  The JavaScript-level values a hotspot reads from its configuration document:
  JSON values, `undefined` (as `None`), the `typeof` tests the hotspot uses, and the
  one failure it can raise on its own, a property read on `null`.
*/
module Js {

  /** `None` stands for `undefined` (a property that is absent). */
  datatype Option<+T> = None | Some(value: T)

  /** A JSON value as found in a configuration document (numbers are exact reals). */
  datatype Json =
    | JNull
    | JBool(b: bool)
    | JNum(n: real)
    | JStr(s: string)
    | JArr(items: seq<Json>)
    | JObj(fields: map<string, Json>)

  /** Reading a property of `null` (or of a null sub-object reference) throws. */
  datatype JsError = TypeError(property: string)

  datatype Result<+T> = Ok(value: T) | Err(error: JsError)

  /** The property read `v.key` for a plain data key such as `type` or `options`:
      `undefined` unless `v` is an object holding `key`; a `TypeError` when `v` is
      `null`. Built-in properties (`length`, `constructor`, ...) are not modelled. */
  function Get(v: Json, key: string): (r: Result<Option<Json>>)
    ensures r.Err? <==> v == JNull
    ensures r.Ok? && r.value.Some? <==> v.JObj? && key in v.fields
    ensures r.Ok? && r.value.Some? ==> r.value.value == v.fields[key]
  {
    match v
    case JNull => Err(TypeError(key))
    case JObj(fields) => if key in fields then Ok(Some(fields[key])) else Ok(None)
    case _ => Ok(None)
  }

  /** JavaScript's ToBoolean on a JSON value (`undefined` is falsy as well). */
  predicate Truthy(v: Json) {
    match v
    case JNull => false
    case JBool(b) => b
    case JNum(n) => n != 0.0
    case JStr(s) => s != ""
    case _ => true
  }

  /** The expression `x || false`: keeps `x` when it is truthy, else yields `false`. */
  function OrFalse(x: Option<Json>): (r: Json)
    ensures x.Some? && Truthy(x.value) ==> r == x.value
    ensures !(x.Some? && Truthy(x.value)) ==> r == JBool(false)
    ensures Truthy(r) <==> x.Some? && Truthy(x.value)
  {
    match x
    case Some(v) => if Truthy(v) then v else JBool(false)
    case None => JBool(false)
  }

  /** `typeof x === "string"`. */
  predicate TypeofString(x: Option<Json>) {
    x.Some? && x.value.JStr?
  }

  /** `typeof x === "object"`: true of `null`, arrays and objects. */
  predicate TypeofObject(x: Option<Json>) {
    x.Some? && (x.value.JNull? || x.value.JArr? || x.value.JObj?)
  }
}

=== FILE: lifecycle.dfy ===
/**
  The hotspot lifecycle: boot, configuration parsing, the material-ready handler
  (geometry build, picking colour, arming the render callbacks), the spatial update
  driven by animation progress, the per-frame update and destroy.
*/
module HotspotLifecycle {
  import opened Js
  import opened Spatial
  import opened Geometry
  import opened HotspotState

  /**
    Boot: creates the transform, the animation (sharing that transform) and the
    material, binds the two render callbacks, then parses the configuration when
    one was supplied. Nothing here marks the node ready or arms the mesh.
  */
  function Boot(n: Node, env: Collaborators): (r: (Node, seq<Effect>))
    ensures Booted(r.0)
    ensures r.0.beforeRenderBound == Some(BeforeRenderBound)
    ensures r.0.afterRenderBound == Some(AfterRenderBound)
    ensures r.0.ready == n.ready && r.0.pickingColor == n.pickingColor
    ensures r.0.mesh.onBeforeRender == n.mesh.onBeforeRender
    ensures r.0.mesh.onAfterRender == n.mesh.onAfterRender
    ensures r.0.mesh.geometry == n.mesh.geometry
    ensures r.0.meshId == n.meshId && r.0.config == n.config
    ensures PlayAnimation !in r.1 && DispatchReady !in r.1
    ensures r.0.material.value.readyHandlerAttached <==> n.config.Some?
    ensures n.config.None? ==> r.1 == []
    ensures r.0.material.value.state == env.newMaterial
    ensures n.config.Some? ==>
      r.1 == ParseEffects(n.config.value, MaterialConfigFor(n.config.value.material, n.debug, env))
    ensures n.config.Some? ==>
      r.0.transform == Some(LoadedTransform(env.newTransform, n.config.value.transform, env))
  {
    var booted := n.(
      transform := Some(env.newTransform),
      animation := Some(Animation(None, false)),
      material := Some(Material(env.newMaterial, None, false)),
      beforeRenderBound := Some(BeforeRenderBound),
      afterRenderBound := Some(AfterRenderBound));
    match n.config
    case Some(c) => ParseConfig(booted, c, env)
    case None => (booted, [])
  }

  /** The material document loaded: the given one, or the transparent preset when
      absent, merged with the debug preset when debugging. */
  function MaterialConfigFor(material: Option<Json>, debug: bool, env: Collaborators): (doc: Json)
    ensures !debug && material.Some? ==> doc == material.value
    ensures !debug && material.None? ==> doc == env.transparentPreset
    ensures debug && material.Some? ==> doc == env.extend(material.value, env.debugPreset)
    ensures debug && material.None? ==> doc == env.extend(env.transparentPreset, env.debugPreset)
  {
    var chosen := match material case Some(m) => m case None => env.transparentPreset;
    if debug then env.extend(chosen, env.debugPreset) else chosen
  }

  /** The calls parsing makes before subscribing to the material: registration and
      the transform and animation loads. */
  function ParsePrelude(c: HotspotConfig): (r: seq<Effect>)
    ensures |r| > 0 && r[0] == Register(c.uid)
    ensures forall e :: e in r ==> (!e.LoadMaterial? && !e.PlayAnimation? && !e.DispatchReady?
                                    && !e.LoadSound? && !e.CreateEvents?)
    ensures SubscribeProgress in r <==> c.animation.Some?
    ensures forall d :: LoadTransform(d) in r <==> c.transform == Some(d)
    ensures forall d :: LoadAnimation(d) in r <==> c.animation == Some(d)
    ensures forall e :: e in r ==> (e.Register? || e.LoadTransform? || e.LoadAnimation?
                                    || e.SubscribeProgress?)
  {
    [Register(c.uid)]
    + (match c.transform case Some(t) => [LoadTransform(t)] case None => [])
    + (match c.animation case Some(a) => [LoadAnimation(a), SubscribeProgress] case None => [])
  }

  /** The calls parsing makes after loading the material: the sound load, and the
      events when the events document is an object. */
  function ParseTail(c: HotspotConfig): (r: seq<Effect>)
    ensures forall e :: e in r ==> (!e.LoadMaterial? && !e.PlayAnimation? && !e.DispatchReady?
                                    && !e.SubscribeProgress? && !e.LoadTransform?)
    ensures forall d, t :: LoadSound(d, t) in r <==> c.sound == Some(d) && t == c.transform
    ensures forall d :: CreateEvents(d) in r <==> TypeofObject(c.events) && c.events == Some(d)
    ensures forall e :: e in r ==> e.LoadSound? || e.CreateEvents?
  {
    (match c.sound case Some(s) => [LoadSound(s, c.transform)] case None => [])
    + (if TypeofObject(c.events) then [CreateEvents(c.events.value)] else [])
  }

  /** The effects of parsing, in the order the calls are made. Parsing registers
      first; it loads the transform, the sound (with the transform document) and the
      events exactly when their documents call for it; it subscribes to animation
      progress exactly when an animation document is present; it never plays the
      animation nor dispatches the ready signal. */
  function ParseEffects(c: HotspotConfig, materialDoc: Json): (r: seq<Effect>)
    ensures |r| > 0 && r[0] == Register(c.uid)
    ensures PlayAnimation !in r && DispatchReady !in r
    ensures SubscribeProgress in r <==> c.animation.Some?
    ensures forall d :: LoadTransform(d) in r <==> c.transform == Some(d)
    ensures forall d, t :: LoadSound(d, t) in r <==> c.sound == Some(d) && t == c.transform
    ensures forall d :: CreateEvents(d) in r <==> TypeofObject(c.events) && c.events == Some(d)
    ensures forall d :: LoadAnimation(d) in r <==> c.animation == Some(d)
    ensures forall e :: e in r ==> (e.Register? || e.LoadTransform? || e.LoadAnimation?
                                    || e.SubscribeProgress? || e.SubscribeMaterialReady?
                                    || e.LoadMaterial? || e.LoadSound? || e.CreateEvents?)
  {
    ParsePrelude(c) + [SubscribeMaterialReady, LoadMaterial(materialDoc)] + ParseTail(c)
  }

  /** The transform after loading the optional transform document. */
  function LoadedTransform(t: Transform, doc: Option<Json>, env: Collaborators): Transform {
    match doc
    case Some(d) => env.loadTransform(t, d)
    case None => t
  }

  /** The animation after loading the optional animation document; loading also
      subscribes the spatial update to its progress. */
  function LoadedAnimation(a: Animation, doc: Option<Json>): (r: Animation)
    ensures r.progressHandlerAttached <==> doc.Some? || a.progressHandlerAttached
    ensures doc.Some? ==> r.loaded == doc
    ensures doc.None? ==> r == a
  {
    match doc
    case Some(d) => a.(loaded := Some(d), progressHandlerAttached := true)
    case None => a
  }

  /** The sound after parsing: a sound document replaces the sound, loaded with the
      transform document; without one the sound is left as it was. */
  function ParsedSound(s: Option<Sound>, c: HotspotConfig): (r: Option<Sound>)
    ensures c.sound.Some? ==> r == Some(Sound(c.sound.value, c.transform))
    ensures c.sound.None? ==> r == s
  {
    match c.sound
    case Some(d) => Some(Sound(d, c.transform))
    case None => s
  }

  /** The effect identifier after parsing: taken only when the document holds a
      string, otherwise left as it was. */
  function ParsedFx(fx: Option<string>, doc: Option<Json>): (r: Option<string>)
    ensures TypeofString(doc) ==> r == Some(doc.value.s)
    ensures !TypeofString(doc) ==> r == fx
  {
    if TypeofString(doc) then Some(doc.value.s) else fx
  }

  /** The material with the ready handler subscribed and its document loaded. */
  function SubscribedMaterial(m: Material, doc: Json): (r: Material)
    ensures r.readyHandlerAttached && r.loaded == Some(doc) && r.state == m.state
  {
    m.(readyHandlerAttached := true, loaded := Some(doc))
  }

  /** The node's state after parsing (the calls made are `ParseEffects`). */
  function ParsedNode(n: Node, c: HotspotConfig, env: Collaborators): (m: Node)
    requires Booted(n)
    ensures Booted(m)
    ensures m.transform == Some(LoadedTransform(n.transform.value, c.transform, env))
    ensures m.animation == Some(LoadedAnimation(n.animation.value, c.animation))
    ensures m.material == Some(SubscribedMaterial(n.material.value, MaterialConfigFor(c.material, n.debug, env)))
    ensures m.sound == ParsedSound(n.sound, c) && m.fx == ParsedFx(n.fx, c.fx)
    ensures m.facingCenter == OrFalse(c.facingCenter)
    ensures m == n.(identity := m.identity, mesh := n.mesh.(name := m.mesh.name),
                    facingCenter := m.facingCenter, transform := m.transform,
                    animation := m.animation, material := m.material, sound := m.sound, fx := m.fx)
  {
    n.(identity := Some(Identity(c.uid, c.tags, c.kind, c.name, c.visible)),
       mesh := n.mesh.(name := "mesh-" + c.uid),
       facingCenter := OrFalse(c.facingCenter),
       transform := Some(LoadedTransform(n.transform.value, c.transform, env)),
       animation := Some(LoadedAnimation(n.animation.value, c.animation)),
       material := Some(SubscribedMaterial(n.material.value, MaterialConfigFor(c.material, n.debug, env))),
       sound := ParsedSound(n.sound, c),
       fx := ParsedFx(n.fx, c.fx))
  }

  /**
    Configuration parsing on a booted node: identity fields, mesh name, the
    facing-center flag, transform and animation loads (the spatial update is
    subscribed to animation progress only when an animation document is present),
    the ready-handler subscription followed by the material load, the sound, the
    effect identifier and the events.
  */
  function ParseConfig(n: Node, c: HotspotConfig, env: Collaborators): (r: (Node, seq<Effect>))
    requires Booted(n)
    ensures Booted(r.0)
    ensures r.0.identity == Some(Identity(c.uid, c.tags, c.kind, c.name, c.visible))
    ensures r.0.mesh.name == "mesh-" + c.uid
    ensures c.facingCenter.None? ==> r.0.facingCenter == JBool(false)
    ensures FacingMode(r.0) <==> c.facingCenter == Some(JBool(true))
    ensures r.0.transform == Some(LoadedTransform(n.transform.value, c.transform, env))
    ensures r.0.animation == Some(LoadedAnimation(n.animation.value, c.animation))
    ensures c.animation.Some? ==> r.0.animation.value.loaded == c.animation
    ensures r.0.material.value.readyHandlerAttached
    ensures r.0.material.value.loaded == Some(MaterialConfigFor(c.material, n.debug, env))
    ensures r.0.animation.value.progressHandlerAttached <==> (c.animation.Some? || n.animation.value.progressHandlerAttached)
    ensures c.sound.Some? ==> r.0.sound == Some(Sound(c.sound.value, c.transform))
    ensures c.sound.None? ==> r.0.sound == n.sound
    ensures TypeofString(c.fx) ==> r.0.fx == Some(c.fx.value.s)
    ensures !TypeofString(c.fx) ==> r.0.fx == n.fx
    ensures r.0.ready == n.ready && r.0.pickingColor == n.pickingColor
    ensures r.0.mesh.onBeforeRender == n.mesh.onBeforeRender
    ensures r.0.mesh.onAfterRender == n.mesh.onAfterRender
    ensures r.0.mesh.geometry == n.mesh.geometry
    ensures r.0.meshId == n.meshId && r.0.config == n.config
    ensures r.0.beforeRenderBound == n.beforeRenderBound
    ensures r.0.afterRenderBound == n.afterRenderBound
    ensures r.1 == ParseEffects(c, MaterialConfigFor(c.material, n.debug, env))
  {
    (ParsedNode(n, c, env), ParseEffects(c, MaterialConfigFor(c.material, n.debug, env)))
  }

  /** In calls made in the order `pre`, subscribe, load, `post`, where neither `pre`
      nor `post` loads a material, every material load comes right after the
      subscription. */
  lemma LoadFollowsSubscription(pre: seq<Effect>, doc: Json, post: seq<Effect>)
    requires forall e :: e in pre ==> !e.LoadMaterial?
    requires forall e :: e in post ==> !e.LoadMaterial?
    ensures var effects := pre + [SubscribeMaterialReady, LoadMaterial(doc)] + post;
      forall j :: 0 <= j < |effects| && effects[j].LoadMaterial? ==>
        0 < j && effects[j - 1] == SubscribeMaterialReady && effects[j] == LoadMaterial(doc)
  {
    var effects := pre + [SubscribeMaterialReady, LoadMaterial(doc)] + post;
    forall j | 0 <= j < |effects|
      ensures effects[j].LoadMaterial? ==>
        0 < j && effects[j - 1] == SubscribeMaterialReady && effects[j] == LoadMaterial(doc)
    {
      if j < |pre| {
        assert effects[j] == pre[j];
      } else if j > |pre| + 1 {
        assert effects[j] == post[j - |pre| - 2];
      }
    }
  }

  /** Every material load made while parsing comes right after the ready-handler
      subscription, so no ready signal can be missed; and exactly that load happens. */
  lemma ParseSubscribesBeforeLoading(c: HotspotConfig, materialDoc: Json)
    ensures var effects := ParseEffects(c, materialDoc);
      && LoadMaterial(materialDoc) in effects
      && forall j :: 0 <= j < |effects| && effects[j].LoadMaterial? ==>
           0 < j && effects[j - 1] == SubscribeMaterialReady && effects[j] == LoadMaterial(materialDoc)
  {
    var pre, post := ParsePrelude(c), ParseTail(c);
    LoadFollowsSubscription(pre, materialDoc, post);
    assert ParseEffects(c, materialDoc)[|pre| + 1] == LoadMaterial(materialDoc);
  }

  /**
    The spatial update: the mesh pose becomes the pose computed from the current
    transform in the node's orientation mode; nothing else changes. Reading the
    transform of a destroyed node throws.
  */
  function UpdatePosition(n: Node, env: Collaborators): (r: Result<Node>)
    ensures r.Ok? <==> n.transform.Some?
    ensures r.Ok? ==> (r.value.mesh.pose
      == SpatialUpdate(n.transform.value, FacingMode(n), env.degToRad, env.sphericalBaseline))
    ensures r.Ok? ==> r.value.mesh.pose.position == n.transform.value.position
    ensures r.Ok? ==> ScaleInRange(r.value.mesh.pose.scale)
    ensures r.Ok? ==> r.value == n.(mesh := n.mesh.(pose := r.value.mesh.pose))
  {
    match n.transform
    case None => Err(TypeError("position"))
    case Some(t) =>
      Ok(n.(mesh := n.mesh.(pose := SpatialUpdate(t, FacingMode(n), env.degToRad, env.sphericalBaseline))))
  }

  /** The geometry descriptor of the node's configuration; reading it from an absent
      configuration throws. */
  function GeometryFor(n: Node): (r: Result<GeometryCall>)
    ensures r.Ok? <==> n.config.Some? && n.config.value.geometry != Some(JNull)
  {
    match n.config
    case None => Err(TypeError("geometry"))
    case Some(c) => SelectGeometry(c.geometry)
  }

  /**
    The hotspot build: selects the geometry, bakes the raw transform scale into it,
    attaches the material and the configuration payload, decides frustum culling,
    runs the spatial update, marks the node ready and dispatches the ready signal
    when there is one.
  */
  function CreateHotspot3D(n: Node, env: Collaborators): (r: Result<(Node, seq<Effect>)>)
    ensures r.Ok? <==> GeometryFor(n).Ok? && n.transform.Some? && n.material.Some?
    ensures r.Ok? ==> r.value.0.ready
    ensures r.Ok? ==> (r.value.0.mesh.geometry
      == Some(BuiltGeometry(GeometryFor(n).value, n.transform.value.scale)))
    ensures r.Ok? ==> r.value.0.mesh.material == n.material.value.state.material
    ensures r.Ok? ==> r.value.0.mesh.userData == n.config
    ensures r.Ok? ==> r.value.0.mesh.frustumCulled == env.viewIsRectilinear
    ensures r.Ok? ==> (r.value.0.mesh.pose
      == SpatialUpdate(n.transform.value, FacingMode(n), env.degToRad, env.sphericalBaseline))
    ensures r.Ok? ==> (DispatchReady in r.value.1 <==> n.readySignal)
    ensures r.Ok? ==> PlayAnimation !in r.value.1
    ensures r.Ok? ==> r.value.0.pickingColor == n.pickingColor
    ensures r.Ok? ==> r.value.0.mesh.onBeforeRender == n.mesh.onBeforeRender
    ensures r.Ok? ==> r.value.0.meshId == n.meshId
    ensures r.Ok? ==> r.value.0 == n.(ready := true, mesh := n.mesh.(
      geometry := r.value.0.mesh.geometry, material := r.value.0.mesh.material,
      pose := r.value.0.mesh.pose, userData := n.config, frustumCulled := env.viewIsRectilinear))
    ensures r.Ok? ==> r.value.1 == if n.readySignal then [DispatchReady] else []
  {
    match GeometryFor(n)
    case Err(e) => Err(e)
    case Ok(call) =>
      if n.transform.None? then Err(TypeError("scale"))
      else if n.material.None? then Err(TypeError("material"))
      else
        var built := n.(mesh := n.mesh.(
          geometry := Some(BuiltGeometry(call, n.transform.value.scale)),
          material := n.material.value.state.material,
          userData := n.config,
          frustumCulled := env.viewIsRectilinear));
        var placed := built.(mesh := built.mesh.(
          pose := SpatialUpdate(n.transform.value, FacingMode(n), env.degToRad, env.sphericalBaseline)));
        Ok((placed.(ready := true), if n.readySignal then [DispatchReady] else []))
  }

  /**
    The material-ready handler: attaches the material, builds the hotspot, takes the
    picking colour the allocator gives for this mesh, arms the mesh's render
    callbacks with the bound ones and starts the animation when it auto-plays.
    Nothing guards against a repeated notification.
  */
  function MaterialReadyHandler(n: Node, env: Collaborators): (r: Result<(Node, seq<Effect>)>)
    ensures r.Ok? <==> Booted(n) && GeometryFor(n).Ok?
    ensures r.Ok? ==> r.value.0.ready && r.value.0.mesh.geometry.Some?
    ensures r.Ok? ==> r.value.0.pickingColor == Some(env.colorFromMesh(n.meshId))
    ensures r.Ok? ==> r.value.0.mesh.onBeforeRender == n.beforeRenderBound
    ensures r.Ok? ==> r.value.0.mesh.onAfterRender == n.afterRenderBound
    ensures r.Ok? ==> (PlayAnimation in r.value.1 <==> env.autoPlay(n.animation.value.loaded))
    ensures r.Ok? ==> (DispatchReady in r.value.1 <==> n.readySignal)
    ensures r.Ok? ==> r.value.0.meshId == n.meshId
    ensures r.Ok? ==> (r.value.0.mesh.geometry
      == Some(BuiltGeometry(GeometryFor(n).value, n.transform.value.scale)))
    ensures r.Ok? ==> (r.value.0.mesh.pose
      == SpatialUpdate(n.transform.value, FacingMode(n), env.degToRad, env.sphericalBaseline))
    ensures r.Ok? ==> r.value.0.mesh.material == n.material.value.state.material
    ensures r.Ok? ==> r.value.0.mesh.userData == n.config
    ensures r.Ok? ==> r.value.0.mesh.frustumCulled == env.viewIsRectilinear
    ensures r.Ok? ==> r.value.0 == n.(ready := true, pickingColor := r.value.0.pickingColor,
      mesh := n.mesh.(geometry := r.value.0.mesh.geometry, material := r.value.0.mesh.material,
                      pose := r.value.0.mesh.pose, userData := n.config,
                      frustumCulled := env.viewIsRectilinear,
                      onBeforeRender := n.beforeRenderBound, onAfterRender := n.afterRenderBound))
    ensures r.Ok? ==> (r.value.1 == (if n.readySignal then [DispatchReady] else [])
                                    + (if env.autoPlay(n.animation.value.loaded) then [PlayAnimation] else []))
  {
    match n.material
    case None => Err(TypeError("material"))
    case Some(m) =>
      var attached := n.(mesh := n.mesh.(material := m.state.material));
      match CreateHotspot3D(attached, env)
      case Err(e) => Err(e)
      case Ok(built) =>
        var (b, effects) := built;
        match b.animation
        case None => Err(TypeError("autoPlay"))
        case Some(a) =>
          var armed := b.(
            pickingColor := Some(env.colorFromMesh(b.meshId)),
            mesh := b.mesh.(onBeforeRender := b.beforeRenderBound, onAfterRender := b.afterRenderBound));
          Ok((armed, effects + if env.autoPlay(a.loaded) then [PlayAnimation] else []))
  }

  /** A second ready notification rebuilds the same node and repeats the handler's
      calls: the ready signal is dispatched again and an auto-playing animation is
      played again. */
  lemma RepeatedReadyReplaysEffects(n: Node, env: Collaborators)
    requires MaterialReadyHandler(n, env).Ok?
    ensures MaterialReadyHandler(MaterialReadyHandler(n, env).value.0, env)
         == MaterialReadyHandler(n, env)
  {
  }

  /**
    The material's ready signal, carrying the state the material resolved: it
    reaches the handler only while the handler is subscribed, and a node without a
    material has nothing that could signal.
  */
  function DeliverMaterialReady(n: Node, resolved: MaterialState, env: Collaborators): (r: Result<(Node, seq<Effect>)>)
    ensures n.material.None? ==> r == Ok((n, []))
    ensures n.material.Some? && !n.material.value.readyHandlerAttached ==>
      r.Ok? && r.value.1 == [] && r.value.0.ready == n.ready
      && r.value.0.mesh == n.mesh && r.value.0.pickingColor == n.pickingColor
    ensures n.material.Some? && n.material.value.readyHandlerAttached ==>
      (r.Ok? <==> Booted(n) && GeometryFor(n).Ok?)
    ensures n.material.Some? && n.material.value.readyHandlerAttached ==>
      r == MaterialReadyHandler(n.(material := Some(n.material.value.(state := resolved))), env)
    ensures r.Ok? && !n.ready && r.value.0.ready ==>
      n.material.Some? && n.material.value.readyHandlerAttached
    ensures r.Ok? ==> r.value.0.meshId == n.meshId
  {
    match n.material
    case None => Ok((n, []))
    case Some(m) =>
      var resolvedNode := n.(material := Some(m.(state := resolved)));
      if m.readyHandlerAttached then MaterialReadyHandler(resolvedNode, env)
      else Ok((resolvedNode, []))
  }

  /**
    Animation progress: the animation has written `t` into the shared transform and
    reports progress; the spatial update re-runs only when it was subscribed. A node
    without an animation or transform has nothing that could report.
  */
  function AnimationProgress(n: Node, t: Transform, env: Collaborators): (r: Node)
    ensures n.animation.Some? && n.transform.Some? ==> r.transform == Some(t)
    ensures n.animation.Some? && n.transform.Some? && n.animation.value.progressHandlerAttached ==>
      r.mesh.pose == SpatialUpdate(t, FacingMode(n), env.degToRad, env.sphericalBaseline)
    ensures !(n.animation.Some? && n.animation.value.progressHandlerAttached) ==> r.mesh == n.mesh
    ensures r.ready == n.ready && r.pickingColor == n.pickingColor && r.meshId == n.meshId
    ensures r.mesh.geometry == n.mesh.geometry && r.mesh.onBeforeRender == n.mesh.onBeforeRender
    ensures n.animation.Some? && n.transform.Some? && n.animation.value.progressHandlerAttached ==>
      UpdatePosition(n.(transform := Some(t)), env) == Ok(r)
    ensures n.animation.Some? && n.transform.Some? && !n.animation.value.progressHandlerAttached ==>
      r == n.(transform := Some(t))
    ensures n.animation.None? || n.transform.None? ==> r == n
  {
    if n.animation.None? || n.transform.None? then n
    else
      var written := n.(transform := Some(t));
      if n.animation.value.progressHandlerAttached then
        var updated := written.(mesh := written.mesh.(
          pose := SpatialUpdate(t, FacingMode(written), env.degToRad, env.sphericalBaseline)));
        updated
      else written
  }

  /** The per-frame update: forwards to the material's and then the sound's own
      update when each exists, and changes nothing in the node. */
  function Update(n: Node): (r: seq<Effect>)
    ensures UpdateMaterial in r <==> n.material.Some?
    ensures UpdateSound in r <==> n.sound.Some?
    ensures forall i :: 0 <= i < |r| ==> r[i] == UpdateMaterial || r[i] == UpdateSound
    ensures forall i, j :: 0 <= i < j < |r| ==> r[i] == UpdateMaterial && r[j] == UpdateSound
  {
    (if n.material.Some? then [UpdateMaterial] else [])
    + (if n.sound.Some? then [UpdateSound] else [])
  }

  /** The node after destroy: sub-objects and bound callbacks released. */
  function Released(n: Node): Node {
    n.(transform := None, animation := None, material := None, sound := None,
       beforeRenderBound := None, afterRenderBound := None)
  }

  /**
    Destroy: unsubscribes the ready handler first, clears the bound callbacks, then
    destroys and releases each sub-object that exists, and finally the base node.
    Reading the material's ready signal on a node without a material throws.
  */
  function Destroy(n: Node): (r: Result<(Node, seq<Effect>)>)
    ensures r.Err? <==> n.material.None?
    ensures r.Ok? ==> (r.value.0.transform.None? && r.value.0.animation.None?
      && r.value.0.material.None? && r.value.0.sound.None?
      && r.value.0.beforeRenderBound.None? && r.value.0.afterRenderBound.None?)
    ensures r.Ok? ==> r.value.0 == Released(n)
    ensures r.Ok? ==> (|r.value.1| >= 3 && r.value.1[0] == UnsubscribeMaterialReady
      && r.value.1[|r.value.1| - 1] == DestroyBase)
    ensures r.Ok? ==> forall i :: 0 <= i < |r.value.1| && IsSubObjectDestroy(r.value.1[i]) ==> 0 < i
    ensures r.Ok? ==> (DestroyTransform in r.value.1 <==> n.transform.Some?)
    ensures r.Ok? ==> (DestroyAnimation in r.value.1 <==> n.animation.Some?)
    ensures r.Ok? ==> DestroyMaterial in r.value.1
    ensures r.Ok? ==> (DestroySound in r.value.1 <==> n.sound.Some?)
    ensures r.Ok? ==> (r.value.1 == [UnsubscribeMaterialReady]
      + (if n.transform.Some? then [DestroyTransform] else [])
      + (if n.animation.Some? then [DestroyAnimation] else [])
      + [DestroyMaterial]
      + (if n.sound.Some? then [DestroySound] else [])
      + [DestroyBase])
  {
    if n.material.None? then Err(TypeError("onReady"))
    else
      Ok((Released(n),
          [UnsubscribeMaterialReady]
          + (if n.transform.Some? then [DestroyTransform] else [])
          + (if n.animation.Some? then [DestroyAnimation] else [])
          + [DestroyMaterial]
          + (if n.sound.Some? then [DestroySound] else [])
          + [DestroyBase]))
  }

  /** Destroy is not idempotent: the first call releases the material, so a second
      one throws. */
  lemma DestroyTwiceFails(n: Node)
    requires Destroy(n).Ok?
    ensures Destroy(Destroy(n).value.0).Err?
  {
  }

  /** After destroy, a late ready signal reaches nothing. */
  lemma LateReadyAfterDestroyIsInert(n: Node, resolved: MaterialState, env: Collaborators)
    requires Destroy(n).Ok?
    ensures DeliverMaterialReady(Destroy(n).value.0, resolved, env) == Ok((Destroy(n).value.0, []))
  {
  }
}

=== FILE: machine.dfy ===
/**
  The hotspot as a state machine driven by the events the outside world delivers
  after boot: material readiness, animation progress, frame updates, draws and
  destroy. The invariant `Consistent` ties the armed render callback to readiness
  and to the allocator's picking colour; it holds from boot on and along every run.
*/
module HotspotMachine {
  import opened Js
  import opened Spatial
  import opened HotspotState
  import opened HotspotLifecycle
  import opened Geometry
  import opened RenderDispatch

  datatype Event =
    | MaterialReady(resolved: MaterialState)
    | Progress(transform: Transform)
    | FrameUpdate
    | Draw(pass: PassMaterial)
    | Teardown

  /** One event: the node after it and the effects it caused, or the error thrown. */
  function Step(n: Node, e: Event, env: Collaborators): Result<(Node, seq<Effect>)> {
    match e
    case MaterialReady(s) => DeliverMaterialReady(n, s, env)
    case Progress(t) => Ok((AnimationProgress(n, t, env), []))
    case FrameUpdate => Ok((n, Update(n)))
    case Draw(pass) =>
      (match RenderMesh(n, pass)
       case Ok(writes) => Ok((n, writes))
       case Err(err) => Err(err))
    case Teardown => Destroy(n)
  }

  /** A run of events, stopping at the first one that throws. */
  function Run(n: Node, events: seq<Event>, env: Collaborators): Result<(Node, seq<Effect>)>
    decreases |events|
  {
    if |events| == 0 then Ok((n, []))
    else
      match Step(n, events[0], env)
      case Err(err) => Err(err)
      case Ok(first) =>
        match Run(first.0, events[1..], env)
        case Err(err) => Err(err)
        case Ok(rest) => Ok((rest.0, first.1 + rest.1))
  }

  /**
    The mesh's before-render slot is armed only on a ready node that holds the
    allocator's colour for its mesh, and its after-render slot only on a ready node;
    a picking colour exists only on a ready node; the mesh holds a primitive exactly
    when the node is ready, and a renderer material only on a ready node.
  */
  predicate Consistent(n: Node, env: Collaborators) {
    && (n.mesh.onBeforeRender.Some? ==> n.ready && n.pickingColor == Some(env.colorFromMesh(n.meshId)))
    && (n.mesh.onAfterRender.Some? ==> n.ready)
    && (n.pickingColor.Some? ==> n.ready && n.pickingColor == Some(env.colorFromMesh(n.meshId)))
    && (n.ready <==> n.mesh.geometry.Some?)
    && (n.mesh.material.Some? ==> n.ready)
  }

  /** A freshly constructed node is consistent, not ready, and has no picking colour
      and no armed callback: boot and parsing do none of what readiness does. */
  lemma ConstructedNodeConsistent(config: Option<HotspotConfig>, debug: bool, meshId: MeshId,
                                  readySignal: bool, env: Collaborators)
    ensures var n := Boot(NewNode(config, debug, meshId, readySignal), env).0;
      && Consistent(n, env) && !n.ready && n.pickingColor.None?
      && n.mesh.onBeforeRender.None? && n.mesh.onAfterRender.None?
      && n.mesh.geometry.None? && n.mesh.material.None?
  {
  }

  lemma StepPreservesConsistent(n: Node, e: Event, env: Collaborators)
    requires Consistent(n, env)
    requires Step(n, e, env).Ok?
    ensures Consistent(Step(n, e, env).value.0, env)
    ensures Step(n, e, env).value.0.meshId == n.meshId
  {
  }

  /** Consistency holds along every run that does not throw. */
  lemma {:induction false} RunPreservesConsistent(n: Node, events: seq<Event>, env: Collaborators)
    requires Consistent(n, env)
    requires Run(n, events, env).Ok?
    ensures Consistent(Run(n, events, env).value.0, env)
    ensures Run(n, events, env).value.0.meshId == n.meshId
    decreases |events|
  {
    if |events| > 0 {
      StepPreservesConsistent(n, events[0], env);
      var first := Step(n, events[0], env).value;
      RunPreservesConsistent(first.0, events[1..], env);
    }
  }

  /** Only a material-ready notification can make a node ready. */
  lemma ReadyOnlyOnMaterialReady(n: Node, e: Event, env: Collaborators)
    requires !n.ready
    requires Step(n, e, env).Ok? && Step(n, e, env).value.0.ready
    ensures e.MaterialReady?
  {
  }

  /** A node that ends a run ready was ready already or saw a material-ready event. */
  lemma {:induction false} RunReadyNeedsMaterialReady(n: Node, events: seq<Event>, env: Collaborators)
    requires !n.ready
    requires Run(n, events, env).Ok? && Run(n, events, env).value.0.ready
    ensures exists i :: 0 <= i < |events| && events[i].MaterialReady?
    decreases |events|
  {
    var first := Step(n, events[0], env).value;
    if first.0.ready {
      ReadyOnlyOnMaterialReady(n, events[0], env);
    } else {
      RunReadyNeedsMaterialReady(first.0, events[1..], env);
      var i :| 0 <= i < |events[1..]| && events[1..][i].MaterialReady?;
      assert events[i + 1].MaterialReady?;
    }
  }

  /** Before readiness a draw writes nothing: the mesh keeps the library's no-op callback. */
  lemma DrawBeforeReadyWritesNothing(n: Node, pass: PassMaterial, env: Collaborators)
    requires Consistent(n, env) && !n.ready
    ensures Step(n, Draw(pass), env) == Ok((n, []))
  {
  }

  /** Every picking colour a step writes, into the program or the material, is the
      allocator's colour for this mesh, never a missing one. */
  lemma StepPickingWritesAllocatorColor(n: Node, e: Event, env: Collaborators)
    requires Consistent(n, env)
    requires Step(n, e, env).Ok?
    ensures forall w :: w in Step(n, e, env).value.1 && w.WriteProgramColor? ==>
      w.color == Some(env.colorFromMesh(n.meshId))
  {
  }

  /** The same along a whole run. */
  lemma {:induction false} RunPickingWritesAllocatorColor(n: Node, events: seq<Event>, env: Collaborators)
    requires Consistent(n, env)
    requires Run(n, events, env).Ok?
    ensures forall w :: w in Run(n, events, env).value.1 && w.WriteProgramColor? ==>
      w.color == Some(env.colorFromMesh(n.meshId))
    decreases |events|
  {
    if |events| > 0 {
      StepPickingWritesAllocatorColor(n, events[0], env);
      StepPreservesConsistent(n, events[0], env);
      var first := Step(n, events[0], env).value;
      RunPickingWritesAllocatorColor(first.0, events[1..], env);
      var rest := Run(first.0, events[1..], env).value;
      assert Run(n, events, env).value.1 == first.1 + rest.1;
    }
  }

  /**
    A configured hotspot `h1` with no material, geometry or facing flag, whose
    transform document loads position (0, 0, -5), rotation 0 and scale 1: parsing
    asks for the transparent preset, and once the material is ready the mesh sits at
    (0, 0, -5) unrotated (in Y-X-Z order) at unit scale on the default plane.
  */
  lemma PlacedHotspotExample(transformDoc: Json, resolved: MaterialState, meshId: MeshId, env: Collaborators)
    requires env.degToRad(0.0) == 0.0
    requires env.loadTransform(env.newTransform, transformDoc)
          == Transform(Vec3(0.0, 0.0, -5.0), Vec3(0.0, 0.0, 0.0), Vec3(1.0, 1.0, 1.0))
    ensures var config := HotspotConfig("h1", [], "image", "", true, Some(transformDoc), None, None,
                                        None, None, None, None, Some(JBool(false)));
      var booted := Boot(NewNode(Some(config), false, meshId, false), env).0;
      && booted.material.value.loaded == Some(env.transparentPreset)
      && Step(booted, MaterialReady(resolved), env).Ok?
      && var placed := Step(booted, MaterialReady(resolved), env).value.0;
      && placed.ready
      && placed.mesh.pose == Pose(Vec3(0.0, 0.0, -5.0), Euler(0.0, 0.0, 0.0, YXZ), Vec3(1.0, 1.0, 1.0))
      && placed.mesh.geometry == Some(BuiltGeometry(DefaultPlane, Vec3(1.0, 1.0, 1.0)))
  {
  }
}

=== FILE: render.dfy ===
/**
  Render-pass dispatch: the before-render callback pushes the view's shared
  uniforms, then writes the uniform the bound pass needs. The colour pass writes
  the node's colour or texture; the picking pass shares one program across all
  hotspots, so the node's picking colour goes straight into that program's uniform
  (and is mirrored into the material's uniform), but only once a program exists.
*/
module RenderDispatch {
  import opened Js
  import opened HotspotState

  /** Names of the two materials a pass can bind. */
  const HotspotMaterialName: string := "HotspotMaterial"
  const PickingMaterialName: string := "PickingMaterial"

  /** The renderer material bound for the current pass, with its compiled program
      once the renderer has linked one. */
  datatype PassMaterial = PassMaterial(name: string, program: Option<ProgramRef>)

  /** The pass-specific uniform writes (everything after the shared push). */
  predicate IsPassWrite(e: Effect) {
    e.WriteColorUniform? || e.WriteTextureUniform? || e.UseProgram? || e.WriteProgramColor?
  }

  /**
    The before-render callback for one pass. On the hotspot pass it reads the
    node's material, which throws on a destroyed node; the picking pass never
    touches the material.
  */
  function BeforeRender(n: Node, pass: PassMaterial): (r: Result<seq<Effect>>)
    ensures r.Err? <==> pass.name == HotspotMaterialName && n.material.None?
    ensures r.Ok? ==> |r.value| >= 1 && r.value[0] == PushSharedUniforms
    ensures r.Ok? ==> forall i :: 1 <= i < |r.value| ==> IsPassWrite(r.value[i])
    ensures pass.name == HotspotMaterialName && n.material.Some? ==>
      var s := n.material.value.state;
      r == Ok([PushSharedUniforms,
               if s.kind == Graphics then WriteColorUniform(Some(s.color)) else WriteTextureUniform(s.texture)])
    ensures pass.name == PickingMaterialName && pass.program.Some? ==>
      r == Ok([PushSharedUniforms, UseProgram(pass.program.value),
               WriteProgramColor(pass.program.value, n.pickingColor), WriteColorUniform(n.pickingColor)])
    ensures pass.name == PickingMaterialName && pass.program.None? ==> r == Ok([PushSharedUniforms])
    ensures pass.name != HotspotMaterialName && pass.name != PickingMaterialName ==>
      r == Ok([PushSharedUniforms])
  {
    if pass.name == HotspotMaterialName then
      match n.material
      case None => Err(TypeError("type"))
      case Some(m) =>
        var write :=
          if m.state.kind == Graphics then WriteColorUniform(Some(m.state.color))
          else WriteTextureUniform(m.state.texture);
        Ok([PushSharedUniforms, write])
    else if pass.name == PickingMaterialName then
      match pass.program
      case Some(p) =>
        var color := n.pickingColor;
        Ok([PushSharedUniforms, UseProgram(p), WriteProgramColor(p, color), WriteColorUniform(color)])
      case None => Ok([PushSharedUniforms])
    else Ok([PushSharedUniforms])
  }

  /** A texture is uploaded only on the hotspot pass of a non-GRAPHICS material, and
      a program is touched only on the picking pass once it is linked. */
  lemma PassWritesFollowPass(n: Node, pass: PassMaterial)
    requires BeforeRender(n, pass).Ok?
    ensures forall e :: e in BeforeRender(n, pass).value && e.WriteTextureUniform? ==>
      pass.name == HotspotMaterialName && n.material.value.state.kind != Graphics
    ensures forall e :: e in BeforeRender(n, pass).value && (e.UseProgram? || e.WriteProgramColor?) ==>
      pass.name == PickingMaterialName && pass.program.Some?
    ensures forall e :: e in BeforeRender(n, pass).value && e.WriteProgramColor? ==>
      e.color == n.pickingColor && e.program == pass.program.value
  {
  }

  /** The renderer calls whatever sits in the mesh's before-render slot; the
      library's default there does nothing. */
  function RenderMesh(n: Node, pass: PassMaterial): Result<seq<Effect>> {
    if n.mesh.onBeforeRender == Some(BeforeRenderBound) then BeforeRender(n, pass) else Ok([])
  }
}

=== FILE: spatial.dfy ===
/**
  The spatial update of a hotspot mesh: position copied from the transform,
  orientation in one of two modes, and a live scale clamped component-wise.
  Degree-to-radian conversion and the spherical baseline of the facing-center mode
  are collaborators passed in as functions.
*/
module Spatial {

  datatype Vec3 = Vec3(x: real, y: real, z: real)

  /** The Euler composition orders of the rendering library. */
  datatype RotationOrder = XYZ | YZX | ZXY | XZY | YXZ | ZYX

  /** Angles in radians, applied in `order`. */
  datatype Euler = Euler(x: real, y: real, z: real, order: RotationOrder)

  /** The hotspot transform: rotation is (pitch, yaw, roll) in degrees. The scale
      here is the unclamped source of truth that animations drive. */
  datatype Transform = Transform(position: Vec3, rotation: Vec3, scale: Vec3)

  /** What the spatial update writes onto the mesh. */
  datatype Pose = Pose(position: Vec3, rotation: Euler, scale: Vec3)

  const MinScale: real := 0.000001
  const MaxScale: real := 100000.0

  function Min(a: real, b: real): real { if a <= b then a else b }

  function Max(a: real, b: real): real { if a >= b then a else b }

  /** `Math.min(hi, Math.max(lo, v))`. */
  function Clamp(v: real, lo: real, hi: real): (r: real)
    ensures lo <= hi ==> lo <= r <= hi
    ensures lo <= v <= hi ==> r == v
    ensures lo <= hi && v < lo ==> r == lo
    ensures hi < v ==> r == hi
  {
    Min(hi, Max(lo, v))
  }

  /** One live scale component, kept inside [MinScale, MaxScale]. */
  function ClampScale(v: real): (r: real)
    ensures MinScale <= r <= MaxScale
    ensures MinScale <= v <= MaxScale <==> r == v
  {
    Clamp(v, MinScale, MaxScale)
  }

  lemma ClampScaleMonotonic(a: real, b: real)
    requires a <= b
    ensures ClampScale(a) <= ClampScale(b)
  {
  }

  /** Every component of `s` lies in the live-scale range. */
  predicate ScaleInRange(s: Vec3) {
    && MinScale <= s.x <= MaxScale
    && MinScale <= s.y <= MaxScale
    && MinScale <= s.z <= MaxScale
  }

  /** Orientation from configured (pitch, yaw, roll) degrees added to a baseline. */
  function Oriented(baseX: real, baseY: real, degrees: Vec3, degToRad: real -> real): Euler {
    Euler(baseX - degToRad(degrees.x), baseY + degToRad(degrees.y), degToRad(degrees.z), YXZ)
  }

  /**
    The pose the mesh takes from transform `t`. In facing-center mode the baseline
    `(-phi + pi/2, theta + pi)` of the position's spherical coordinates is supplied
    by `baseline`; in fixed mode the baseline is zero.
  */
  function SpatialUpdate(t: Transform, facingCenter: bool, degToRad: real -> real,
                         baseline: Vec3 -> (real, real)): (p: Pose)
    ensures p.position == t.position
    ensures p.rotation.order == YXZ
    ensures !facingCenter ==>
      p.rotation.x == -degToRad(t.rotation.x)
      && p.rotation.y == degToRad(t.rotation.y)
      && p.rotation.z == degToRad(t.rotation.z)
    ensures facingCenter ==>
      p.rotation.x == baseline(t.position).0 - degToRad(t.rotation.x)
      && p.rotation.y == baseline(t.position).1 + degToRad(t.rotation.y)
      && p.rotation.z == degToRad(t.rotation.z)
    ensures ScaleInRange(p.scale)
    ensures MinScale <= t.scale.x <= MaxScale <==> p.scale.x == t.scale.x
    ensures MinScale <= t.scale.y <= MaxScale <==> p.scale.y == t.scale.y
    ensures MinScale <= t.scale.z <= MaxScale <==> p.scale.z == t.scale.z
    ensures t.scale.x < MinScale ==> p.scale.x == MinScale
    ensures MaxScale < t.scale.x ==> p.scale.x == MaxScale
    ensures t.scale.y < MinScale ==> p.scale.y == MinScale
    ensures MaxScale < t.scale.y ==> p.scale.y == MaxScale
    ensures t.scale.z < MinScale ==> p.scale.z == MinScale
    ensures MaxScale < t.scale.z ==> p.scale.z == MaxScale
  {
    var rotation :=
      if facingCenter then
        var b := baseline(t.position);
        Oriented(b.0, b.1, t.rotation, degToRad)
      else
        Oriented(0.0, 0.0, t.rotation, degToRad);
    Pose(t.position, rotation,
         Vec3(ClampScale(t.scale.x), ClampScale(t.scale.y), ClampScale(t.scale.z)))
  }

  /** In fixed mode the orientation depends on the configured rotation only. */
  lemma FixedRotationIgnoresPosition(t: Transform, u: Transform, degToRad: real -> real,
                                     baseline: Vec3 -> (real, real))
    requires t.rotation == u.rotation
    ensures SpatialUpdate(t, false, degToRad, baseline).rotation
         == SpatialUpdate(u, false, degToRad, baseline).rotation
  {
  }

  /** A transform already in range is written to the mesh unchanged. */
  lemma InRangeScaleKept(t: Transform, facingCenter: bool, degToRad: real -> real,
                         baseline: Vec3 -> (real, real))
    requires ScaleInRange(t.scale)
    ensures SpatialUpdate(t, facingCenter, degToRad, baseline).scale == t.scale
  {
  }
}

=== FILE: state.dfy ===
/**
  The state of one hotspot node: its configuration, its owned sub-objects (each an
  `Option`, `None` being a null reference), the mesh it drives, and the bound
  render callbacks. Collaborators the node calls but does not own are gathered in
  `Collaborators`; the calls it makes into them are reported as `Effect`s.
*/
module HotspotState {
  import opened Js
  import opened Spatial
  import opened Geometry

  /** Identity of the mesh, the key of the picking-colour allocator. */
  type MeshId = nat

  datatype Color = Color(r: real, g: real, b: real)
  datatype TextureRef = TextureRef(id: nat)
  datatype MaterialRef = MaterialRef(id: nat)
  datatype ProgramRef = ProgramRef(id: nat)

  /** The hotspot material's type: only GRAPHICS (a flat colour) is told apart. */
  datatype MaterialType = Graphics | OtherKind(name: string)

  /** What the material collaborator exposes: its type, flat colour, texture and the
      renderer material it resolved. */
  datatype MaterialState = MaterialState(
    kind: MaterialType,
    color: Color,
    texture: Option<TextureRef>,
    material: Option<MaterialRef>)

  /** The owned material: its exposed state, the document it was asked to load, and
      whether the node's ready handler is subscribed to its ready signal. */
  datatype Material = Material(state: MaterialState, loaded: Option<Json>, readyHandlerAttached: bool)

  /** The owned animation: the document it loaded and whether the node's spatial
      update is subscribed to its progress signal. */
  datatype Animation = Animation(loaded: Option<Json>, progressHandlerAttached: bool)

  /** The owned sound, loaded from its own document and the transform document. */
  datatype Sound = Sound(doc: Json, transformDoc: Option<Json>)

  /** The two callbacks bound once at boot, compared by identity. */
  datatype Callback = BeforeRenderBound | AfterRenderBound

  /** A geometry built by a factory call, then scaled once by the raw transform scale. */
  datatype BuiltGeometry = BuiltGeometry(call: GeometryCall, bakedScale: Vec3)

  /** The configuration document; `None` fields are `undefined`. */
  datatype HotspotConfig = HotspotConfig(
    uid: string,
    tags: seq<string>,
    kind: string,
    name: string,
    visible: bool,
    transform: Option<Json>,
    animation: Option<Json>,
    material: Option<Json>,
    sound: Option<Json>,
    geometry: Option<Json>,
    fx: Option<Json>,
    events: Option<Json>,
    facingCenter: Option<Json>)

  /** The identity fields copied from the configuration. */
  datatype Identity = Identity(uid: string, tags: seq<string>, kind: string, name: string, visible: bool)

  /** The drawable the node drives. The callback slots hold `None` while they keep
      the rendering library's no-op default. */
  datatype Mesh = Mesh(
    name: string,
    geometry: Option<BuiltGeometry>,
    material: Option<MaterialRef>,
    pose: Pose,
    userData: Option<HotspotConfig>,
    frustumCulled: bool,
    onBeforeRender: Option<Callback>,
    onAfterRender: Option<Callback>)

  /** The hotspot node. `facingCenter` holds the value `config.facingCenter || false`;
      `readySignal` says whether the base node has a ready signal to dispatch. */
  datatype Node = Node(
    config: Option<HotspotConfig>,
    debug: bool,
    identity: Option<Identity>,
    mesh: Mesh,
    meshId: MeshId,
    transform: Option<Transform>,
    animation: Option<Animation>,
    material: Option<Material>,
    sound: Option<Sound>,
    facingCenter: Json,
    fx: Option<string>,
    pickingColor: Option<Color>,
    beforeRenderBound: Option<Callback>,
    afterRenderBound: Option<Callback>,
    ready: bool,
    readySignal: bool)

  /**
    The collaborators the node consults without owning them: angle conversion, the
    spherical baseline of facing-center mode, the picking-colour allocator, the
    preset merge and the two presets, the transform and animation loaders, the
    material's state before loading, and whether the active view is rectilinear.
  */
  datatype Collaborators = Collaborators(
    degToRad: real -> real,
    sphericalBaseline: Vec3 -> (real, real),
    colorFromMesh: MeshId -> Color,
    extend: (Json, Json) -> Json,
    transparentPreset: Json,
    debugPreset: Json,
    newTransform: Transform,
    loadTransform: (Transform, Json) -> Transform,
    newMaterial: MaterialState,
    autoPlay: Option<Json> -> bool,
    viewIsRectilinear: bool)

  /** A call into a collaborator or a write into the renderer's uniforms. */
  datatype Effect =
    | Register(uid: string)
    | LoadTransform(doc: Json)
    | LoadAnimation(doc: Json)
    | SubscribeProgress
    | SubscribeMaterialReady
    | LoadMaterial(doc: Json)
    | LoadSound(doc: Json, transformDoc: Option<Json>)
    | CreateEvents(doc: Json)
    | DispatchReady
    | PlayAnimation
    | UpdateMaterial
    | UpdateSound
    | UnsubscribeMaterialReady
    | DestroyTransform
    | DestroyAnimation
    | DestroyMaterial
    | DestroySound
    | DestroyBase
    | PushSharedUniforms
    | WriteColorUniform(color: Option<Color>)
    | WriteTextureUniform(texture: Option<TextureRef>)
    | UseProgram(program: ProgramRef)
    | WriteProgramColor(program: ProgramRef, color: Option<Color>)

  /** The teardown of one owned sub-object. */
  predicate IsSubObjectDestroy(e: Effect) {
    e.DestroyTransform? || e.DestroyAnimation? || e.DestroyMaterial? || e.DestroySound?
  }

  /** The mesh as the base node creates it: default pose, no primitive, no-op callbacks. */
  const InitialMesh: Mesh :=
    Mesh("", None, None, Pose(Vec3(0.0, 0.0, 0.0), Euler(0.0, 0.0, 0.0, XYZ), Vec3(1.0, 1.0, 1.0)),
         None, true, None, None)

  /** The node right after its fields are initialised, before boot. */
  function NewNode(config: Option<HotspotConfig>, debug: bool, meshId: MeshId, readySignal: bool): Node {
    Node(config, debug, None, InitialMesh, meshId, None, None, None, None, JBool(false), None,
         None, None, None, false, readySignal)
  }

  /** Boot has created the three sub-objects every later step dereferences. */
  predicate Booted(n: Node) {
    n.transform.Some? && n.animation.Some? && n.material.Some?
  }

  /** The orientation mode: facing-center only when the stored flag is exactly `true`. */
  predicate FacingMode(n: Node) {
    n.facingCenter == JBool(true)
  }
}
